=== FILE: README.md ===
# Colour dropper: a Dafny model

The colour dropper is a browser script. A user uploads an image, switches on
dropper mode with a button, and hovers over the image. A floating magnifier
then shows a 3x enlargement around the pointer, labelled with the colour
under it. A click copies that colour, as `#RRGGBB`, to an on-page label and to
the clipboard, and leaves dropper mode.

This project models the two pieces of logic in that script:

- **`rgbToHex`** (`ColorHex`). It is modelled as the script writes it. That
  means ECMAScript `<<` with its 32-bit wrap, `Number.prototype.toString(16)`,
  `slice(1)` and `toUpperCase`. It is proved equal to an independent
  digit-by-digit definition of `#RRGGBB`. A parser (`ParseHexColor`) inverts
  it in both directions.
- **The interaction state machine** (`Dropper`, `DropperRuns`). The
  script's global variables and the page state its handlers write are one
  immutable record, `State`. The handlers are pure functions. `Step(state,
  event)` applies one of five events:
  - `Toggle`: the dropper button;
  - `MouseMove(client)`;
  - `FrameFire(viewport)`: the `requestAnimationFrame` callback, made explicit;
  - `Click(client, viewport)`;
  - `Decoded(buffer)`: a finished upload installing a new sampling context.

  `Run` folds `Step` over an event sequence. The lemmas cover frame
  coalescing, the 3-unit jitter debounce, the toggle and the click, an
  invariant of every reachable state, and the end-to-end red-pixel pick.
- **Surface translation** (`Surface`): `client − rect corner + scroll`. The
  hover path and the click path share it.
- **Magnifier crop** (`Magnifier`): a 150×150 source square centred on the
  surface point, drawn into a 450×450 preview.

Modelling choices:

- The sampling context (`zoomCtx`) is `Option<Buffer>`. A `Buffer` is an
  abstract total function from a surface point to an `Rgb` with channels in
  0..255. `None` is the null context.
- `State.pending` is `Some(p)` exactly while the `isZoomCircleVisible` flag is
  set. `p` holds the client coordinates that the scheduled frame's closure
  captured.
- The code reads the bounding rectangle and scroll offset inside
  `updateZoomCircle`, so at frame time and not at move time. The viewport is
  therefore a parameter of `FrameFire`, and of `Click`, which reads it itself.
- `FrameFire` with no frame scheduled is a no-op, because no callback exists
  then.
- Coordinates are integers.

Behaviour of the code worth knowing:

- The 3-unit debounce runs inside the frame callback (src/main.ts:58), not
  before a frame is scheduled. A sub-threshold move still schedules a frame,
  and it blocks later moves until that frame fires.
- The frame callback (src/main.ts:109-112) does not check whether dropper
  mode is on. A frame scheduled just before a click or a toggle-off still
  updates the magnifier (`DropperRuns.FrameOutlivesClick`).
- The initial last point (-1, -1) (src/main.ts:12) is a real point to the
  debounce. A first hover at surface (0, 0) is ignored
  (`DropperRuns.FirstHoverAtOriginIsIgnored`).
- A click (src/main.ts:115-133) does not reset the last point or a pending
  frame.

## Model

| member | source | states |
|---|---|---|
| ColorHex.ToInt32 | src/main.ts:137 | the 32-bit signed conversion behind `<<`: the result is in the int32 range, congruent to the input modulo 2^32, and equal to it when it already fits |
| ColorHex.ShiftLeftNoWrap | src/main.ts:137 | a left shift whose product stays below 2^31 does not wrap, so each channel shift is a plain multiplication |
| ColorHex.ShiftLeft | src/main.ts:137 | `x << k` lies in the int32 range and is congruent modulo 2^32 to ToInt32(x)·2^(k mod 32) |
| ColorHex.Packed | src/main.ts:137 | for 8-bit channels `(1<<24) + (r<<16) + (g<<8) + b` is 2^24 + r·2^16 + g·2^8 + b, with no 32-bit overflow |
| ColorHex.Radix16 | src/main.ts:137 | `toString(16)` of a non-negative integer is lower-case hex digits that denote the number, with no leading zero, and exactly `0` for zero |
| ColorHex.NumberToHexString | src/main.ts:137 | `toString(16)` of any integer starts with `-` exactly when it is negative, the digits after it denote the magnitude with no leading zero, and zero gives exactly `0` |
| ColorHex.SliceFrom | src/main.ts:137 | `slice(1)` drops the first character: the result is one shorter and holds the remaining characters in order, or is empty past the end |
| ColorHex.ToUpperCase | src/main.ts:137 | `toUpperCase` keeps the length, upper-cases each ASCII letter, and turns each lower-case hex digit into the upper-case digit of the same value |
| ColorHex.Radix16Leading | src/main.ts:137 | the hex text of 16^k + m (m < 16^k) is `1` followed by the k zero-padded digits of m: adding 1<<24 is what pads the output |
| ColorHex.SlicedDigits | src/main.ts:137 | after `slice(1)` the text is the two-digit lower-case hex of r, then of g, then of b |
| ColorHex.ByteHex | src/main.ts:137 | one channel as two upper-case hex digits whose value is the channel |
| ColorHex.RgbToHex | src/main.ts:136-138 | `rgbToHex` as written equals `#` followed by the zero-padded upper-case hex of r, g and b, for every colour, and decoding its six digits gives back (r, g, b) |
| ColorHex.RgbToHexFormat | src/main.ts:137 | the result has exactly 7 characters: `#` and six characters from 0-9A-F |
| ColorHex.RgbToHexOfParse | src/main.ts:136-138 | every well-formed `#RRGGBB` text is the `rgbToHex` of the colour it decodes to |
| ColorHex.RgbToHexInjective | src/main.ts:136-138 | distinct colours produce distinct texts |
| ColorHex.RgbToHexRed | src/main.ts:137 | (255, 0, 0) gives "#FF0000" |
| ColorHex.RgbToHexBlack | src/main.ts:137 | (0, 0, 0) gives "#000000" |
| ColorHex.RgbToHexMixed | src/main.ts:137 | (18, 52, 86) gives "#123456" |
| Dropper.Init | src/main.ts:8-12 | at load the dropper is off, no frame is pending, the last point is (-1, -1), there is no sampling context, nothing has been picked, and the invariant holds |
| Dropper.Jitter | src/main.ts:58 | the debounce test holds exactly when the point is strictly less than 3 away from the last point on both axes |
| Surface.ToSurface | src/main.ts:54-56 | the surface point is offset from the client point by scroll minus the bounding-box corner, on each axis |
| Surface.ToSurfaceRoundTrip | src/main.ts:117-119 | for a fixed viewport the translation is a bijection: translating back recovers the client point |
| Surface.ToSurfaceKeepsOffsets | src/main.ts:55-58 | the translation keeps differences, so the debounce distance is the same in surface and in client coordinates |
| Magnifier.ZoomCrop | src/main.ts:77-88 | the source square is 150 on a side, its middle is the sampled point, and it is drawn at the origin three times larger |
| Magnifier.PreviewCentreIsSample | src/main.ts:88 | the middle pixel of the preview is scaled from the sampled point |
| Magnifier.PreviewStaysInSquare | src/main.ts:88 | every preview pixel is scaled from a point within 75 of the centre on each axis |
| Magnifier.PreviewShowsSquare | src/main.ts:88 | every point of the source square appears in the preview |
| Dropper.PreviewFor | src/main.ts:64-72 | the magnifier's border colour and code label are the same text, that text decodes to the sampled colour, the magnifier sits at the raw pointer position, and the crop is centred on the surface point |
| Dropper.OnToggle | src/main.ts:47-51 | the mode flips; afterwards the cursor is the crosshair exactly when enabled and the circle is shown exactly when enabled; nothing else changes |
| Dropper.OnMouseMove | src/main.ts:103-108 | a move while disabled or while a frame is pending changes nothing; otherwise it only marks a frame pending, with this move's coordinates |
| Dropper.UpdateZoomCircle | src/main.ts:53-74 | within 3 units on both axes of the last point nothing changes; otherwise the last point becomes the surface point and, with a buffer, the magnifier shows the colour sampled there; without a buffer the magnifier is untouched; only the last point and the magnifier ever change |
| Dropper.OnFrame | src/main.ts:109-112 | the frame always clears the pending flag and runs exactly one update, for the coordinates captured when it was scheduled |
| Dropper.OnClick | src/main.ts:115-133 | a click while disabled changes nothing; an enabled click with a buffer puts the same text in the label and the clipboard, and that text decodes to the pixel at the translated point; every enabled click leaves the mode disabled, the cursor default and the circle hidden; without a buffer the label and clipboard keep their values |
| Dropper.OnDecoded | src/main.ts:31-37 | a decoded upload replaces the sampling context and nothing else in the dropper state |
| Dropper.Step | src/main.ts:47-133 | every event preserves the invariant: cursor and circle follow the mode, label equals clipboard, and every shown text is a well-formed colour |
| Dropper.Run | src/main.ts:47-133 | any sequence of events preserves the same invariant |
| DropperRuns.ReachableIsConsistent | src/main.ts:8-12 | every state reachable from page load satisfies the invariant |
| DropperRuns.IdleMovesAreDropped | src/main.ts:104-106 | any number of moves while disabled or while a frame is pending leaves the state unchanged: they are dropped, not queued |
| DropperRuns.MovesCoalesce | src/main.ts:103-113 | a burst of moves while enabled schedules one frame, for the first move's coordinates |
| DropperRuns.AtMostOneUpdatePerFrame | src/main.ts:103-113 | any number of moves followed by a frame gives at most one update, using the first move's coordinates, and none when disabled or with no move |
| DropperRuns.JitterIsIgnored | src/main.ts:58-60 | a move and its frame within 3 units of the last point on both axes leave the whole state unchanged |
| DropperRuns.DistantMoveIsProcessed | src/main.ts:58-72 | a move 3 or more units away on an axis updates the last point and, with a buffer, the magnifier's colour |
| DropperRuns.ToggleTwice | src/main.ts:47-51 | two toggles restore the mode, and in a consistent state the whole state |
| DropperRuns.FirstHoverAtOriginIsIgnored | src/main.ts:58-62 | with the initial last point (-1, -1), a first hover at surface (0, 0) is within the threshold and leaves the magnifier empty |
| DropperRuns.FrameOutlivesClick | src/main.ts:109-112 | a frame scheduled before a click still updates the magnifier after the click has disabled the dropper |
| DropperRuns.RedHoverEndToEnd | src/main.ts:103-113 | after loading, enabling and hovering at surface (50, 50) over a red pixel, the magnifier shows "#FF0000" |
| DropperRuns.RedPickEndToEnd | src/main.ts:115-133 | clicking there then puts "#FF0000" in the label and the clipboard, disables the dropper and restores the default cursor |

## Left out

- Image upload (reading the file, decoding the image, sizing the canvases, `drawImage`, `clearRect`): asynchronous browser I/O. Only its effect on the dropper, a new sampling context, is modelled, as `Decoded`.
- The display height `canvasWidth / aspectRatio` and its truncation on assignment to `canvas.height`: floating-point arithmetic whose rounding the browser decides.
- Dropper.UpdateZoomCircle: assumes the sampling canvas has non-zero width and height. For an image wide enough that the display height truncates to 0 (src/main.ts:23, 33), the `drawImage` at src/main.ts:88 throws. By then lines 61-62 have set the last point and lines 67-70 the border colour and position, but the label at line 99 is never written. So the border can differ from the code label, and the border-equals-code part of `Dropper.Consistent` holds only for a non-empty sampling canvas.
- Dropper.OnFrame: makes the same assumption. When `updateZoomCircle` throws, src/main.ts:111 is skipped and the pending flag stays set, so line 106 drops every later move until the page is reloaded. `OnFrame`'s "the frame always clears the pending flag" holds only for a non-empty sampling canvas.
- What `getImageData` returns, including out of bounds and at fractional coordinates: foreign browser semantics. The buffer is an abstract lookup.
- Fractional pointer, rectangle and scroll coordinates: they are doubles in the browser and integers here.
- The pixel resampling of the magnified `drawImage` and the `toDataURL` background image: rendering. The crop rectangles and the geometric mapping from a preview pixel back to a source pixel are modelled; the smoothing is not.
- The `getContext('2d')` of the magnifier's result canvas (src/main.ts:85-87) is taken to succeed, so its null branch is not modelled. The sampling canvas's context can be null in the model: `Decoded(None)` stands for that case.
- Dropper.Init: the page is assumed to load with the default cursor and the magnifier hidden. The script does not set them; they come from the page around the script, which is not part of this model.
- `navigator.clipboard.writeText`: a fire-and-forget promise whose rejection is ignored. It is modelled only as the clipboard field taking the hex text.
- Dropper.OnClick: assumes a secure context, where `navigator.clipboard` exists. On a page without it (served over plain http), the call at src/main.ts:126 throws after line 125 has written the label, and lines 129-131 are skipped: the dropper stays enabled, with the crosshair cursor and the circle shown, and the label no longer equals the clipboard. The model does not have that path, so `OnClick`'s "an enabled click disables the dropper", the label-equals-clipboard part of `Dropper.Consistent`, and `DropperRuns.RedPickEndToEnd` hold only in a secure context.
- The resize handler, which replays the upload handler: plumbing around the image decoding left out above.
- CSS strings, pixel positioning, and the one-time creation of the `.color-code` element: UI detail. The magnifier's state is the `Preview` record.
- ColorHex.ToUpperCase: upper-cases ASCII letters only, not all of Unicode. That is enough because its input is always hexadecimal digits.
- ColorHex.RgbToHex: defined for 8-bit channels only, which is what `getImageData` delivers. Other numbers passed to the JavaScript function are not modelled.

=== FILE: colorhex.dfy ===
/** The colour-to-text conversion of the dropper: `rgbToHex` as the script
    writes it, out of ECMAScript's `<<`, `Number.prototype.toString(16)`,
    `String.prototype.slice(1)` and `toUpperCase`, together with an
    independent digit-by-digit definition of the `#RRGGBB` format and a
    parser that recovers the three channels from it. */
module ColorHex {
  import opened Wrappers

  /** One 8-bit colour channel, as `getImageData` delivers it. */
  type Channel = x: int | 0 <= x < 256

  datatype Rgb = Rgb(r: Channel, g: Channel, b: Channel)

  const TwoTo31: int := 0x8000_0000
  const TwoTo32: int := 0x1_0000_0000

  function Pow2(k: nat): (p: nat)
    ensures p >= 1
  {
    if k == 0 then 1 else 2 * Pow2(k - 1)
  }

  function Pow16(k: nat): (p: nat)
    ensures p >= 1
  {
    if k == 0 then 1 else 16 * Pow16(k - 1)
  }

  // ---------------------------------------------------------------------
  // ECMAScript number operations used by rgbToHex
  // ---------------------------------------------------------------------

  /** ECMAScript ToInt32 on an integral number: reduce modulo 2^32 into the
      signed 32-bit range. */
  function ToInt32(x: int): (r: int)
    ensures -TwoTo31 <= r < TwoTo31
    ensures (x - r) % TwoTo32 == 0
    ensures -TwoTo31 <= x < TwoTo31 ==> r == x
  {
    var m := x % TwoTo32;
    if m >= TwoTo31 then m - TwoTo32 else m
  }

  /** The `x << k` operator on integral operands: the left operand is taken
      as a signed 32-bit integer, the count modulo 32, and the product wraps
      back into the signed 32-bit range. */
  function ShiftLeft(x: int, k: int): (r: int)
    ensures -TwoTo31 <= r < TwoTo31
    ensures (ToInt32(x) * Pow2(k % 32) - r) % TwoTo32 == 0
  {
    ToInt32(ToInt32(x) * Pow2(k % 32))
  }

  lemma MulAtLeast(x: nat, p: nat)
    requires p >= 1
    ensures x <= x * p
  {
    assert x * p == x + x * (p - 1);
  }

  /** A shift that stays below 2^31 does not wrap: it is a multiplication. */
  lemma ShiftLeftNoWrap(x: int, k: nat)
    requires 0 <= x && k < 32 && x * Pow2(k) < TwoTo31
    ensures ShiftLeft(x, k) == x * Pow2(k)
  {
    var p := Pow2(k);
    var m := x * p;
    MulAtLeast(x, p);
    assert ToInt32(x) == x;
    assert k % 32 == k;
    assert ShiftLeft(x, k) == ToInt32(m);
  }

  predicate IsLowerHexChar(c: char)
  {
    '0' <= c <= '9' || 'a' <= c <= 'f'
  }

  /** The value of one lower-case hexadecimal digit. */
  function LowerHexValue(c: char): (d: nat)
    requires IsLowerHexChar(c)
    ensures d < 16
  {
    if c <= '9' then c as int - '0' as int else c as int - 'a' as int + 10
  }

  /** A lower-case hexadecimal digit, as `toString(16)` writes it. */
  function LowerHexChar(d: nat): (c: char)
    requires d < 16
    ensures IsLowerHexChar(c)
    ensures LowerHexValue(c) == d
  {
    if d < 10 then ('0' as int + d) as char else ('a' as int + d - 10) as char
  }

  predicate AllLowerHex(s: string)
  {
    forall i | 0 <= i < |s| :: IsLowerHexChar(s[i])
  }

  /** The number a string of lower-case hexadecimal digits denotes, most
      significant digit first. */
  function DigitsValue(s: string): nat
    requires AllLowerHex(s)
    decreases |s|
  {
    if s == [] then 0 else 16 * DigitsValue(s[..|s| - 1]) + LowerHexValue(s[|s| - 1])
  }

  /** The digits of `n.toString(16)` for a non-negative integer: lower-case
      hexadecimal digits that denote `n`, with no leading zero except for
      zero itself. */
  function Radix16(n: nat): (s: string)
    ensures |s| >= 1
    ensures AllLowerHex(s)
    ensures DigitsValue(s) == n
    ensures s[0] == '0' <==> n == 0
    ensures n == 0 ==> s == "0"
  {
    if n < 16 then [LowerHexChar(n)]
    else
      var front := Radix16(n / 16);
      var s := front + [LowerHexChar(n % 16)];
      assert s[..|s| - 1] == front;
      s
  }

  /** `n.toString(16)` for any integral number: a minus sign exactly when
      negative, followed by the digits of the magnitude. */
  function NumberToHexString(n: int): (r: string)
    ensures |r| >= 1
    ensures r[0] == '-' <==> n < 0
    ensures n >= 0 ==> AllLowerHex(r) && DigitsValue(r) == n
    ensures n < 0 ==> AllLowerHex(r[1..]) && DigitsValue(r[1..]) == -n
    ensures n == 0 ==> r == "0"
    ensures n > 0 ==> r[0] != '0'
    ensures n < 0 ==> |r| >= 2 && r[1] != '0'
  {
    if n < 0 then
      var r := "-" + Radix16(-n);
      assert r[1..] == Radix16(-n);
      r
    else Radix16(n)
  }

  /** `s.slice(start)` for a non-negative start: the suffix from `start`, or
      the empty string when `start` is past the end. */
  function SliceFrom(s: string, start: nat): (t: string)
    ensures start <= |s| ==> |t| == |s| - start
    ensures start > |s| ==> t == []
    ensures forall i | 0 <= i < |t| :: t[i] == s[start + i]
  {
    if start <= |s| then s[start..] else []
  }

  /** `toUpperCase` on one character, restricted to ASCII: the letters a-z
      map to A-Z and every other character is kept. */
  function UpperAscii(c: char): (u: char)
    ensures 'a' <= c <= 'z' ==> 'A' <= u <= 'Z' && u as int - 'A' as int == c as int - 'a' as int
    ensures !('a' <= c <= 'z') ==> u == c
  {
    if 'a' <= c <= 'z' then (c as int - 32) as char else c
  }

  /** `s.toUpperCase()` for ASCII text, character by character. */
  function ToUpperCase(s: string): (t: string)
    ensures |t| == |s|
    ensures forall i | 0 <= i < |s| :: t[i] == UpperAscii(s[i])
    ensures forall i | 0 <= i < |s| && IsLowerHexChar(s[i]) ::
      IsUpperHexChar(t[i]) && HexValue(t[i]) == LowerHexValue(s[i])
  {
    seq(|s|, i requires 0 <= i < |s| => UpperAscii(s[i]))
  }

  /** The value `rgbToHex` formats: 1 << 24, plus each channel shifted into
      its byte. No shift wraps, so it is 2^24 plus the 24-bit number of the
      three channels. */
  function Packed(c: Rgb): (p: int)
    ensures p == 0x100_0000 + Channels(c)
  {
    PowValues();
    ShiftLeftNoWrap(1, 24);
    ShiftLeftNoWrap(c.r, 16);
    ShiftLeftNoWrap(c.g, 8);
    ShiftLeft(1, 24) + ShiftLeft(c.r, 16) + ShiftLeft(c.g, 8) + c.b
  }

  /** `rgbToHex(r, g, b)` as the script writes it. For every colour the
      result is the digit-by-digit `#RRGGBB` text, and it decodes back to the
      colour. */
  function RgbToHex(c: Rgb): (s: string)
    ensures s == HexColor(c)
    ensures ParseHexColor(s) == Some(c)
  {
    UpperDigitsAreHexColor(c);
    ParseHexColorOf(c);
    "#" + ToUpperCase(SliceFrom(NumberToHexString(Packed(c)), 1))
  }

  // ---------------------------------------------------------------------
  // The #RRGGBB format, defined digit by digit
  // ---------------------------------------------------------------------

  predicate IsUpperHexChar(c: char)
  {
    '0' <= c <= '9' || 'A' <= c <= 'F'
  }

  /** The value of one upper-case hexadecimal digit. */
  function HexValue(c: char): (d: nat)
    requires IsUpperHexChar(c)
    ensures d < 16
  {
    if c <= '9' then c as int - '0' as int else c as int - 'A' as int + 10
  }

  /** The upper-case hexadecimal digit for a value below 16. */
  function UpperHexChar(d: nat): (c: char)
    requires d < 16
    ensures IsUpperHexChar(c)
    ensures HexValue(c) == d
  {
    if d < 10 then ('0' as int + d) as char else ('A' as int + d - 10) as char
  }

  /** Every upper-case hexadecimal digit is the digit of its own value. */
  lemma HexValueRoundTrip(c: char)
    requires IsUpperHexChar(c)
    ensures UpperHexChar(HexValue(c)) == c
  {
  }

  /** A channel as two upper-case hexadecimal digits, zero-padded. */
  function ByteHex(x: Channel): (s: string)
    ensures |s| == 2 && IsUpperHexChar(s[0]) && IsUpperHexChar(s[1])
    ensures 16 * HexValue(s[0]) + HexValue(s[1]) == x
  {
    [UpperHexChar(x / 16), UpperHexChar(x % 16)]
  }

  /** The intended text of a colour: `#`, then the two-digit upper-case hex
      of red, of green and of blue. */
  function HexColor(c: Rgb): string
  {
    "#" + ByteHex(c.r) + ByteHex(c.g) + ByteHex(c.b)
  }

  /** Text of the form `#` followed by six upper-case hexadecimal digits. */
  predicate IsHexColor(s: string)
  {
    |s| == 7 && s[0] == '#' && forall i | 1 <= i < 7 :: IsUpperHexChar(s[i])
  }

  /** The channel written by two upper-case hexadecimal digits. */
  function ByteValue(hi: char, lo: char): (x: Channel)
    requires IsUpperHexChar(hi) && IsUpperHexChar(lo)
    ensures ByteHex(x) == [hi, lo]
  {
    var h := HexValue(hi);
    var l := HexValue(lo);
    HexValueRoundTrip(hi);
    HexValueRoundTrip(lo);
    DivModSixteen(h, l);
    var x: Channel := 16 * h + l;
    assert x / 16 == h && x % 16 == l;
    assert ByteHex(x) == [UpperHexChar(h), UpperHexChar(l)];
    x
  }

  /** Reads a `#RRGGBB` colour back into its channels; anything else is
      rejected. */
  function ParseHexColor(s: string): (o: Option<Rgb>)
    ensures o.Some? <==> IsHexColor(s)
    ensures o.Some? ==> HexColor(o.value) == s
  {
    if IsHexColor(s) then
      var c := Rgb(ByteValue(s[1], s[2]), ByteValue(s[3], s[4]), ByteValue(s[5], s[6]));
      assert HexColor(c) == s;
      Some(c)
    else
      None
  }

  // ---------------------------------------------------------------------
  // rgbToHex produces exactly the #RRGGBB format
  // ---------------------------------------------------------------------

  /** The `k` low hexadecimal digits of `n`, lower case, zero-padded. */
  function FixedHex(n: nat, k: nat): (s: string)
    ensures |s| == k
  {
    if k == 0 then [] else FixedHex(n / 16, k - 1) + [LowerHexChar(n % 16)]
  }

  lemma DivModSixteen(q: nat, m: nat)
    ensures (16 * q + m) / 16 == q + m / 16
    ensures (16 * q + m) % 16 == m % 16
  {
  }

  /** `(16^k + m).toString(16)` for `m < 16^k` is a leading `1` followed by
      the `k` zero-padded digits of `m`: the padding trick of rgbToHex. */
  lemma {:induction false} Radix16Leading(k: nat, m: nat)
    requires m < Pow16(k)
    ensures Radix16(Pow16(k) + m) == ['1'] + FixedHex(m, k)
  {
    if k > 0 {
      var q := Pow16(k - 1);
      DivModSixteen(q, m);
      Radix16Leading(k - 1, m / 16);
    }
  }

  /** Fixed-width digits of `a * 16^k + c` split into the digits of `a` and
      the `k` digits of `c`. */
  lemma {:induction false} FixedHexSplit(a: nat, c: nat, j: nat, k: nat)
    requires c < Pow16(k)
    ensures FixedHex(a * Pow16(k) + c, j + k) == FixedHex(a, j) + FixedHex(c, k)
  {
    if k > 0 {
      var q := a * Pow16(k - 1);
      assert a * Pow16(k) == 16 * q;
      DivModSixteen(q, c);
      FixedHexSplit(a, c / 16, j, k - 1);
    }
  }

  lemma ByteDigits(x: Channel)
    ensures ToUpperCase(FixedHex(x, 2)) == ByteHex(x)
  {
    assert FixedHex(x, 2) == [LowerHexChar(x / 16), LowerHexChar(x % 16)];
  }

  lemma PowValues()
    ensures Pow2(8) == 256 && Pow2(16) == 65536 && Pow2(24) == 16777216
    ensures Pow16(2) == 256 && Pow16(4) == 65536 && Pow16(6) == 16777216
  {
    assert Pow2(4) == 16;
    assert Pow2(8) == 256;
    assert Pow2(12) == 4096;
    assert Pow2(16) == 65536;
    assert Pow2(20) == 1048576;
    assert Pow16(2) == 256;
    assert Pow16(4) == 65536;
  }

  /** The three channels as one 24-bit number, red most significant. */
  function Channels(c: Rgb): (n: nat)
    ensures n < 0x100_0000
  {
    c.r * 0x1_0000 + c.g * 0x100 + c.b
  }

  /** The six zero-padded digits of the channels are those of red, green and
      blue in turn. */
  lemma ChannelDigits(c: Rgb)
    ensures FixedHex(Channels(c), 6) == FixedHex(c.r, 2) + FixedHex(c.g, 2) + FixedHex(c.b, 2)
  {
    PowValues();
    var low := c.g * 0x100 + c.b;
    assert c.g * Pow16(2) + c.b == low;
    FixedHexSplit(c.g, c.b, 2, 2);
    assert low < Pow16(4);
    assert c.r * Pow16(4) + low == Channels(c);
    FixedHexSplit(c.r, low, 2, 4);
  }

  /** After `slice(1)`, the hexadecimal text of the packed value is the
      zero-padded digits of red, green and blue in turn. */
  lemma SlicedDigits(c: Rgb)
    ensures SliceFrom(NumberToHexString(Packed(c)), 1)
         == FixedHex(c.r, 2) + FixedHex(c.g, 2) + FixedHex(c.b, 2)
  {
    var m := Channels(c);
    PowValues();
    Radix16Leading(6, m);
    var text := NumberToHexString(Packed(c));
    assert text == ['1'] + FixedHex(m, 6);
    assert SliceFrom(text, 1) == FixedHex(m, 6);
    ChannelDigits(c);
  }

  lemma UpperConcat(a: string, b: string, d: string)
    ensures ToUpperCase(a + b + d) == ToUpperCase(a) + ToUpperCase(b) + ToUpperCase(d)
  {
  }

  /** The steps of rgbToHex, composed, give the digit-by-digit text. */
  lemma UpperDigitsAreHexColor(c: Rgb)
    ensures "#" + ToUpperCase(SliceFrom(NumberToHexString(Packed(c)), 1)) == HexColor(c)
  {
    SlicedDigits(c);
    UpperConcat(FixedHex(c.r, 2), FixedHex(c.g, 2), FixedHex(c.b, 2));
    ByteDigits(c.r);
    ByteDigits(c.g);
    ByteDigits(c.b);
  }

  /** rgbToHex always yields seven characters: `#` and six upper-case
      hexadecimal digits. */
  lemma RgbToHexFormat(c: Rgb)
    ensures |RgbToHex(c)| == 7
    ensures RgbToHex(c)[0] == '#'
    ensures forall i | 1 <= i < 7 :: IsUpperHexChar(RgbToHex(c)[i])
    ensures IsHexColor(RgbToHex(c))
  {
    HexColorIsWellFormed(c);
  }

  /** The digit-by-digit text of a colour is well formed. */
  lemma HexColorIsWellFormed(c: Rgb)
    ensures IsHexColor(HexColor(c))
  {
    var s := HexColor(c);
    var r, g, b := ByteHex(c.r), ByteHex(c.g), ByteHex(c.b);
    assert s == ['#', r[0], r[1], g[0], g[1], b[0], b[1]];
  }

  /** Different colours have different digit-by-digit texts. */
  lemma HexColorInjective(c: Rgb, d: Rgb)
    requires HexColor(c) == HexColor(d)
    ensures c == d
  {
    var s := HexColor(c);
    assert s[1..3] == ByteHex(c.r) && s[1..3] == ByteHex(d.r);
    assert s[3..5] == ByteHex(c.g) && s[3..5] == ByteHex(d.g);
    assert s[5..7] == ByteHex(c.b) && s[5..7] == ByteHex(d.b);
  }

  /** Decoding the digit-by-digit text of a colour gives back the colour. */
  lemma ParseHexColorOf(c: Rgb)
    ensures ParseHexColor(HexColor(c)) == Some(c)
  {
    HexColorIsWellFormed(c);
    var o := ParseHexColor(HexColor(c));
    HexColorInjective(o.value, c);
  }

  /** Every well-formed `#RRGGBB` text is the rgbToHex of the colour it
      parses to. */
  lemma RgbToHexOfParse(s: string, c: Rgb)
    requires ParseHexColor(s) == Some(c)
    ensures RgbToHex(c) == s
  {
  }

  /** Distinct colours never share a text. */
  lemma RgbToHexInjective(c: Rgb, d: Rgb)
    ensures RgbToHex(c) == RgbToHex(d) ==> c == d
  {
    assert ParseHexColor(RgbToHex(c)) == Some(c);
    assert ParseHexColor(RgbToHex(d)) == Some(d);
  }

  lemma HexColorRed(c: Rgb)
    requires c == Rgb(255, 0, 0)
    ensures HexColor(c) == "#FF0000"
  {
    assert ByteHex(c.r) == "FF";
    assert ByteHex(c.g) == "00" && ByteHex(c.b) == "00";
  }

  /** Worked example: pure red. */
  lemma RgbToHexRed(c: Rgb)
    requires c == Rgb(255, 0, 0)
    ensures RgbToHex(c) == "#FF0000"
  {
    HexColorRed(c);
  }

  lemma HexColorBlack(c: Rgb)
    requires c == Rgb(0, 0, 0)
    ensures HexColor(c) == "#000000"
  {
    assert ByteHex(c.r) == "00" && ByteHex(c.g) == "00" && ByteHex(c.b) == "00";
  }

  /** Worked example: black keeps all six zeros. */
  lemma RgbToHexBlack(c: Rgb)
    requires c == Rgb(0, 0, 0)
    ensures RgbToHex(c) == "#000000"
  {
    HexColorBlack(c);
  }

  lemma HexColorMixed(c: Rgb)
    requires c == Rgb(18, 52, 86)
    ensures HexColor(c) == "#123456"
  {
    assert ByteHex(c.r) == "12";
    assert ByteHex(c.g) == "34";
    assert ByteHex(c.b) == "56";
  }

  /** Worked example: every digit differs. */
  lemma RgbToHexMixed(c: Rgb)
    requires c == Rgb(18, 52, 86)
    ensures RgbToHex(c) == "#123456"
  {
    HexColorMixed(c);
  }
}

=== FILE: dropper.dfy ===
/** The dropper's interaction state and the handlers that change it: the
    dropper button, pointer moves over the canvas, the animation-frame
    callback those moves schedule, clicks on the canvas, and the arrival of a
    new sampling buffer when an upload has been decoded. */
module Dropper {
  import opened Wrappers
  import opened Surface
  import opened ColorHex
  import Magnifier

  /** The sampling canvas's 2D context, reduced to what the dropper reads
      from it: the colour of the pixel at a surface-local point. */
  datatype Buffer = Buffer(pixelAt: Point -> Rgb)

  datatype Cursor = DefaultCursor | Crosshair

  /** What the floating magnifier shows after an update: its border colour,
      its position (the raw pointer coordinates), the crop drawn into it, and
      the text of its colour-code label. */
  datatype Preview = Preview(border: string, at: Point, crop: Magnifier.Crop, code: string)

  /** The script's module-level state and the page state its handlers write.
      `pending` is Some exactly while a frame is scheduled (the
      isZoomCircleVisible flag), holding the client coordinates of the move
      that scheduled it. `hexLabel` (the on-page colour text) and `clipboard`
      are None until the first pick writes them. */
  datatype State = State(
    enabled: bool,
    pending: Option<Point>,
    last: Point,
    buffer: Option<Buffer>,
    cursor: Cursor,
    circleShown: bool,
    preview: Option<Preview>,
    hexLabel: Option<string>,
    clipboard: Option<string>)

  datatype Event =
    | Toggle
    | MouseMove(client: Point)
    | FrameFire(view: Viewport)
    | Click(client: Point, view: Viewport)
    | Decoded(sampler: Option<Buffer>)

  /** The last processed point before any update: (-1, -1). */
  const NoPoint: Point := Point(-1, -1)

  /** Moves smaller than this on both axes are ignored. */
  const JitterThreshold: int := 3

  /** The state when the script has loaded: dropper off, no frame
      scheduled, last point (-1, -1), no sampling context yet, and nothing
      picked. The cursor and the magnifier's visibility are those the page
      starts with. */
  function Init(): (s: State)
    ensures !s.enabled && s.pending.None? && s.last == NoPoint
    ensures s.buffer.None? && s.preview.None?
    ensures s.hexLabel.None? && s.clipboard.None?
    ensures Consistent(s)
  {
    State(false, None, NoPoint, None, DefaultCursor, false, None, None, None)
  }

  function Abs(x: int): nat
  {
    if x < 0 then -x else x
  }

  /** The debounce test: `a` is within the threshold of `last` on both axes. */
  predicate Jitter(a: Point, last: Point): (j: bool)
    ensures j <==> -JitterThreshold < a.x - last.x < JitterThreshold
                   && -JitterThreshold < a.y - last.y < JitterThreshold
  {
    Abs(a.x - last.x) < JitterThreshold && Abs(a.y - last.y) < JitterThreshold
  }

  /** What the page shows in the magnifier after sampling `colour` at the
      surface point `a` for a pointer at `client`. */
  function PreviewFor(colour: Rgb, client: Point, a: Point): (p: Preview)
    ensures p.border == p.code
    ensures ParseHexColor(p.code) == Some(colour)
    ensures p.at == client
    ensures p.crop.dw > 0 && p.crop.dh > 0
    ensures Magnifier.SourceAt(p.crop, Point(p.crop.dw / 2, p.crop.dh / 2)) == a
  {
    Magnifier.PreviewCentreIsSample(a);
    var hex := RgbToHex(colour);
    Preview(hex, client, Magnifier.ZoomCrop(a), hex)
  }

  /** The invariant the handlers keep: the cursor and the magnifier follow the
      mode, the hexLabel and the clipboard always hold the same text, and every
      text shown is a well-formed colour. */
  ghost predicate Consistent(s: State)
  {
    && (s.cursor == Crosshair <==> s.enabled)
    && (s.circleShown <==> s.enabled)
    && s.hexLabel == s.clipboard
    && (s.hexLabel.Some? ==> IsHexColor(s.hexLabel.value))
    && (s.preview.Some? ==> s.preview.value.border == s.preview.value.code
                            && IsHexColor(s.preview.value.code))
  }

  // ---------------------------------------------------------------------
  // Handlers
  // ---------------------------------------------------------------------

  /** The dropper button: flip the mode, and show the crosshair cursor and
      the magnifier exactly when the new mode is enabled. */
  function OnToggle(s: State): (t: State)
    ensures t.enabled == !s.enabled
    ensures t.cursor == Crosshair <==> t.enabled
    ensures t.circleShown <==> t.enabled
    ensures t.(enabled := s.enabled, cursor := s.cursor, circleShown := s.circleShown) == s
  {
    var on := !s.enabled;
    s.(enabled := on, cursor := if on then Crosshair else DefaultCursor, circleShown := on)
  }

  /** A pointer move: ignored while disabled or while a frame is already
      scheduled; otherwise schedules one frame for this move's coordinates. */
  function OnMouseMove(s: State, client: Point): (t: State)
    ensures !s.enabled || s.pending.Some? ==> t == s
    ensures s.enabled && s.pending.None? ==> t.pending == Some(client) && t.(pending := None) == s
  {
    if !s.enabled || s.pending.Some? then s else s.(pending := Some(client))
  }

  /** updateZoomCircle: translate to the surface, skip sub-threshold jitter,
      otherwise record the point and, when a sampling buffer exists, show its
      pixel there in the magnifier. */
  function UpdateZoomCircle(s: State, client: Point, v: Viewport): (t: State)
    ensures var a := ToSurface(client, v);
      && (Jitter(a, s.last) ==> t == s)
      && (!Jitter(a, s.last) ==> t.last == a)
      && (!Jitter(a, s.last) && s.buffer.Some? ==>
            t.preview.Some?
            && ParseHexColor(t.preview.value.code) == Some(s.buffer.value.pixelAt(a))
            && t.preview.value.border == t.preview.value.code
            && t.preview.value.at == client)
      && (s.buffer.None? ==> t.preview == s.preview)
    ensures t.(last := s.last, preview := s.preview) == s
  {
    var a := ToSurface(client, v);
    if Jitter(a, s.last) then s
    else
      var moved := s.(last := a);
      match s.buffer
      case None => moved
      case Some(buf) => moved.(preview := Some(PreviewFor(buf.pixelAt(a), client, a)))
  }

  /** The animation-frame callback: run the update for the scheduled move,
      then clear the flag. With nothing scheduled there is no callback. */
  function OnFrame(s: State, v: Viewport): (t: State)
    ensures t.pending.None?
    ensures s.pending.None? ==> t == s
    ensures s.pending.Some? ==> t == UpdateZoomCircle(s, s.pending.value, v).(pending := None)
  {
    match s.pending
    case None => s
    case Some(client) => UpdateZoomCircle(s, client, v).(pending := None)
  }

  /** A click on the canvas: while enabled, sample the pixel under the
      pointer into the hexLabel and the clipboard (when a buffer exists), then
      leave dropper mode. While disabled, nothing happens. */
  function OnClick(s: State, client: Point, v: Viewport): (t: State)
    ensures !s.enabled ==> t == s
    ensures s.enabled ==> !t.enabled && t.cursor == DefaultCursor && !t.circleShown
    ensures s.enabled && s.buffer.Some? ==>
      && t.hexLabel == t.clipboard
      && t.hexLabel.Some?
      && ParseHexColor(t.hexLabel.value) == Some(s.buffer.value.pixelAt(ToSurface(client, v)))
    ensures s.buffer.None? ==> t.hexLabel == s.hexLabel && t.clipboard == s.clipboard
    ensures t.(enabled := s.enabled, cursor := s.cursor, circleShown := s.circleShown,
               hexLabel := s.hexLabel, clipboard := s.clipboard) == s
  {
    if !s.enabled then s
    else
      var a := ToSurface(client, v);
      var picked :=
        (if s.buffer.None? then s
         else
           var colour := s.buffer.value.pixelAt(a);
           var hex := RgbToHex(colour);
           s.(hexLabel := Some(hex), clipboard := Some(hex)));
      picked.(enabled := false, cursor := DefaultCursor, circleShown := false)
  }

  /** A decoded upload installs a new sampling buffer (or none, when the
      2D context could not be obtained); nothing else in the dropper changes. */
  function OnDecoded(s: State, sampler: Option<Buffer>): (t: State)
    ensures t.buffer == sampler
    ensures t.(buffer := s.buffer) == s
  {
    s.(buffer := sampler)
  }

  function Step(s: State, e: Event): (t: State)
    ensures Consistent(s) ==> Consistent(t)
  {
    match e
    case Toggle => OnToggle(s)
    case MouseMove(client) => OnMouseMove(s, client)
    case FrameFire(v) => OnFrame(s, v)
    case Click(client, v) => OnClick(s, client, v)
    case Decoded(sampler) => OnDecoded(s, sampler)
  }

  /** The state after a sequence of events, in order. */
  function Run(s: State, events: seq<Event>): (t: State)
    ensures Consistent(s) ==> Consistent(t)
    decreases |events|
  {
    if events == [] then s else Run(Step(s, events[0]), events[1..])
  }
}

=== FILE: dropper_runs.dfy ===
/** Properties of event sequences: frame coalescing, the jitter debounce,
    the toggle's involution, the reachable-state invariant, and end-to-end
    picks. */
module DropperRuns {
  import opened Wrappers
  import opened Surface
  import opened ColorHex
  import opened Dropper

  predicate AllMoves(events: seq<Event>)
  {
    forall i | 0 <= i < |events| :: events[i].MouseMove?
  }

  lemma RunCons(s: State, e: Event, rest: seq<Event>)
    ensures Run(s, [e] + rest) == Run(Step(s, e), rest)
  {
    assert ([e] + rest)[1..] == rest;
  }

  lemma RunTwo(s: State, e1: Event, e2: Event)
    ensures Run(s, [e1, e2]) == Step(Step(s, e1), e2)
  {
    assert [e1, e2] == [e1] + [e2];
    RunCons(s, e1, [e2]);
    assert [e2] == [e2] + [];
    RunCons(Step(s, e1), e2, []);
  }

  lemma RunThree(s: State, e1: Event, e2: Event, e3: Event)
    ensures Run(s, [e1, e2, e3]) == Step(Step(Step(s, e1), e2), e3)
  {
    assert [e1, e2, e3] == [e1] + [e2, e3];
    RunCons(s, e1, [e2, e3]);
    RunTwo(Step(s, e1), e2, e3);
  }

  lemma RunFour(s: State, e1: Event, e2: Event, e3: Event, e4: Event)
    ensures Run(s, [e1, e2, e3, e4]) == Step(Step(Step(Step(s, e1), e2), e3), e4)
  {
    assert [e1, e2, e3, e4] == [e1] + [e2, e3, e4];
    RunCons(s, e1, [e2, e3, e4]);
    RunThree(Step(s, e1), e2, e3, e4);
  }

  lemma {:induction false} RunAppend(s: State, a: seq<Event>, b: seq<Event>)
    ensures Run(s, a + b) == Run(Run(s, a), b)
    decreases |a|
  {
    if a == [] {
      assert a + b == b;
    } else {
      assert a + b == [a[0]] + (a[1..] + b);
      RunCons(s, a[0], a[1..] + b);
      assert a == [a[0]] + a[1..];
      RunCons(s, a[0], a[1..]);
      RunAppend(Step(s, a[0]), a[1..], b);
    }
  }

  /** While disabled, or while a frame is already scheduled, pointer moves
      change nothing: they are dropped, not queued. */
  lemma {:induction false} IdleMovesAreDropped(s: State, moves: seq<Event>)
    requires !s.enabled || s.pending.Some?
    requires AllMoves(moves)
    ensures Run(s, moves) == s
    decreases |moves|
  {
    if moves != [] {
      assert Step(s, moves[0]) == s;
      assert moves == [moves[0]] + moves[1..];
      RunCons(s, moves[0], moves[1..]);
      IdleMovesAreDropped(s, moves[1..]);
    }
  }

  /** A burst of moves while enabled schedules one frame, for the first
      move's coordinates; the rest are dropped. */
  lemma MovesCoalesce(s: State, moves: seq<Event>)
    requires s.enabled && s.pending.None?
    requires AllMoves(moves) && |moves| > 0
    ensures Run(s, moves) == s.(pending := Some(moves[0].client))
  {
    var t := Step(s, moves[0]);
    assert t == s.(pending := Some(moves[0].client));
    assert moves == [moves[0]] + moves[1..];
    RunCons(s, moves[0], moves[1..]);
    IdleMovesAreDropped(t, moves[1..]);
  }

  /** Between two frames, any number of pointer moves leads to at most one
      magnifier update, and that update uses the first move's coordinates. */
  lemma AtMostOneUpdatePerFrame(s: State, moves: seq<Event>, v: Viewport)
    requires s.pending.None?
    requires AllMoves(moves)
    ensures Run(s, moves + [FrameFire(v)])
         == if s.enabled && |moves| > 0 then UpdateZoomCircle(s, moves[0].client, v) else s
  {
    RunAppend(s, moves, [FrameFire(v)]);
    assert [FrameFire(v)] == [FrameFire(v)] + [];
    RunCons(Run(s, moves), FrameFire(v), []);
    if s.enabled && |moves| > 0 {
      MovesCoalesce(s, moves);
    } else if moves == [] {
      assert Run(s, moves) == s;
    } else {
      IdleMovesAreDropped(s, moves);
    }
  }

  /** A move that lands within the jitter threshold of the last processed
      point, on both axes, leaves the whole state as it was once its frame
      has run. */
  lemma JitterIsIgnored(s: State, client: Point, v: Viewport)
    requires s.enabled && s.pending.None?
    requires Jitter(ToSurface(client, v), s.last)
    ensures Run(s, [MouseMove(client), FrameFire(v)]) == s
  {
    RunTwo(s, MouseMove(client), FrameFire(v));
  }

  /** A move beyond the threshold on either axis is processed: the last
      point becomes its surface position and, with a buffer, the magnifier
      shows the colour found there. */
  lemma DistantMoveIsProcessed(s: State, client: Point, v: Viewport)
    requires s.enabled && s.pending.None?
    requires !Jitter(ToSurface(client, v), s.last)
    ensures var t := Run(s, [MouseMove(client), FrameFire(v)]);
      && t.last == ToSurface(client, v)
      && t.pending.None?
      && (s.buffer.Some? ==>
            t.preview.Some?
            && ParseHexColor(t.preview.value.code) == Some(s.buffer.value.pixelAt(ToSurface(client, v))))
  {
    RunTwo(s, MouseMove(client), FrameFire(v));
  }

  /** Pressing the dropper button twice returns to the original mode, and in
      a consistent state to the original state. */
  lemma ToggleTwice(s: State)
    ensures Run(s, [Toggle, Toggle]).enabled == s.enabled
    ensures Consistent(s) ==> Run(s, [Toggle, Toggle]) == s
  {
    RunTwo(s, Toggle, Toggle);
  }

  /** Every state reachable from page load keeps the invariant: cursor and
      magnifier follow the mode, label and clipboard agree, and every text
      is a well-formed colour. */
  lemma ReachableIsConsistent(events: seq<Event>)
    ensures Consistent(Run(Init(), events))
  {
  }

  /** The initial last point (-1, -1) does not stand for "nothing processed
      yet": a first hover at the surface origin is within the threshold of it
      and is ignored, so the magnifier stays empty. */
  lemma FirstHoverAtOriginIsIgnored(b: Buffer, client: Point, v: Viewport)
    requires ToSurface(client, v) == Point(0, 0)
    ensures var t := Run(Init(), [Decoded(Some(b)), Toggle, MouseMove(client), FrameFire(v)]);
      t.enabled && t.preview.None? && t.last == NoPoint
  {
    RunFour(Init(), Decoded(Some(b)), Toggle, MouseMove(client), FrameFire(v));
    var s := Step(Step(Init(), Decoded(Some(b))), Toggle);
    assert s.enabled && s.pending.None? && s.last == NoPoint && s.preview.None?;
    var s1 := Step(s, MouseMove(client));
    assert s1 == s.(pending := Some(client));
    assert Jitter(ToSurface(client, v), s.last);
    var s2 := Step(s1, FrameFire(v));
    assert s2 == UpdateZoomCircle(s1, client, v).(pending := None);
  }

  /** A frame scheduled before a click still runs after the click has left
      dropper mode: the frame callback does not consult the mode. */
  lemma FrameOutlivesClick(s: State, client: Point, at: Point, v: Viewport, w: Viewport)
    requires s.enabled && s.pending.None? && s.buffer.Some?
    requires !Jitter(ToSurface(client, v), s.last)
    ensures var t := Run(s, [MouseMove(client), Click(at, w), FrameFire(v)]);
      && !t.enabled && !t.circleShown
      && t.preview.Some?
      && ParseHexColor(t.preview.value.code) == Some(s.buffer.value.pixelAt(ToSurface(client, v)))
  {
    RunThree(s, MouseMove(client), Click(at, w), FrameFire(v));
    var s1 := Step(s, MouseMove(client));
    assert s1 == s.(pending := Some(client));
    var s2 := Step(s1, Click(at, w));
    assert s2.pending == Some(client) && s2.last == s.last && s2.buffer == s.buffer;
    assert !s2.enabled && !s2.circleShown;
    var s3 := Step(s2, FrameFire(v));
    assert s3 == UpdateZoomCircle(s2, client, v).(pending := None);
  }

  /** End to end, hovering: after an upload, enabling the dropper and
      hovering at surface (50, 50) over a pure red pixel shows "#FF0000" in
      the magnifier, still in dropper mode. */
  lemma RedHoverEndToEnd(b: Buffer, v: Viewport, client: Point)
    requires b.pixelAt(Point(50, 50)) == Rgb(255, 0, 0)
    requires client == ToClient(Point(50, 50), v)
    ensures var hovered := Run(Init(), [Decoded(Some(b)), Toggle, MouseMove(client), FrameFire(v)]);
      && hovered.enabled && hovered.buffer == Some(b)
      && hovered.preview.Some? && hovered.preview.value.code == "#FF0000"
  {
    var colour := b.pixelAt(Point(50, 50));
    RunFour(Init(), Decoded(Some(b)), Toggle, MouseMove(client), FrameFire(v));
    var s := Step(Step(Init(), Decoded(Some(b))), Toggle);
    assert s == Init().(buffer := Some(b), enabled := true, cursor := Crosshair, circleShown := true);
    assert ToSurface(client, v) == Point(50, 50) by {
      ToSurfaceRoundTrip(client, Point(50, 50), v);
    }
    assert !Jitter(Point(50, 50), NoPoint);
    DistantMoveIsProcessed(s, client, v);
    RunTwo(s, MouseMove(client), FrameFire(v));
    var hovered := Run(s, [MouseMove(client), FrameFire(v)]);
    assert hovered.enabled && hovered.buffer == Some(b);
    RgbToHexOfParse(hovered.preview.value.code, colour);
    RgbToHexRed(colour);
  }

  /** End to end, picking: clicking at the same place then writes "#FF0000"
      to the label and the clipboard and leaves dropper mode with the
      default cursor. */
  lemma RedPickEndToEnd(b: Buffer, v: Viewport, client: Point)
    requires b.pixelAt(Point(50, 50)) == Rgb(255, 0, 0)
    requires client == ToClient(Point(50, 50), v)
    ensures var picked := Run(Init(), [Decoded(Some(b)), Toggle, MouseMove(client), FrameFire(v), Click(client, v)]);
      && picked.hexLabel == Some("#FF0000")
      && picked.clipboard == Some("#FF0000")
      && !picked.enabled
      && picked.cursor == DefaultCursor
  {
    var colour := b.pixelAt(Point(50, 50));
    var hoverEvents := [Decoded(Some(b)), Toggle, MouseMove(client), FrameFire(v)];
    RedHoverEndToEnd(b, v, client);
    var hovered := Run(Init(), hoverEvents);
    RunAppend(Init(), hoverEvents, [Click(client, v)]);
    assert hoverEvents + [Click(client, v)]
        == [Decoded(Some(b)), Toggle, MouseMove(client), FrameFire(v), Click(client, v)];
    assert [Click(client, v)] == [Click(client, v)] + [];
    RunCons(hovered, Click(client, v), []);
    assert ToSurface(client, v) == Point(50, 50) by {
      ToSurfaceRoundTrip(client, Point(50, 50), v);
    }
    var picked := Step(hovered, Click(client, v));
    assert picked.hexLabel.Some? && ParseHexColor(picked.hexLabel.value) == Some(colour);
    RgbToHexOfParse(picked.hexLabel.value, colour);
    RgbToHexRed(colour);
  }
}

=== FILE: magnifier.dfy ===
/** The crop arithmetic of the magnifier: a fixed-size square of the sampling
    buffer, centred on the surface point, drawn three times larger into the
    preview. The crop rectangles and the geometric mapping from a preview
    pixel back to a source pixel are modelled; the smoothing done by the
    browser's drawImage is not. */
module Magnifier {
  import opened Surface

  /** Side of the source square, in surface pixels. */
  const ZoomSize: int := 150

  /** Magnification factor of the preview. */
  const ZoomLevel: int := 3

  /** The arguments of a nine-argument drawImage call: source rectangle
      (sx, sy, sw, sh) and destination rectangle (dx, dy, dw, dh). */
  datatype Crop = Crop(sx: int, sy: int, sw: int, sh: int,
                       dx: int, dy: int, dw: int, dh: int)

  /** The crop drawn for a preview centred on `centre`. */
  function ZoomCrop(centre: Point): (c: Crop)
    ensures c.sw == ZoomSize && c.sh == ZoomSize
    ensures c.dx == 0 && c.dy == 0
    ensures c.dw == ZoomLevel * c.sw && c.dh == ZoomLevel * c.sh
    ensures c.sx + c.sw / 2 == centre.x && c.sy + c.sh / 2 == centre.y
  {
    Crop(centre.x - ZoomSize / 2, centre.y - ZoomSize / 2, ZoomSize, ZoomSize,
         0, 0, ZoomSize * ZoomLevel, ZoomSize * ZoomLevel)
  }

  /** The source point a destination pixel of the crop is scaled from. */
  function SourceAt(c: Crop, t: Point): Point
    requires c.dw > 0 && c.dh > 0
  {
    Point(c.sx + (t.x - c.dx) * c.sw / c.dw, c.sy + (t.y - c.dy) * c.sh / c.dh)
  }

  /** The middle of the preview shows the sampled point itself. */
  lemma PreviewCentreIsSample(centre: Point)
    ensures SourceAt(ZoomCrop(centre), Point(ZoomSize * ZoomLevel / 2, ZoomSize * ZoomLevel / 2)) == centre
  {
  }

  /** Every pixel of the preview comes from the source square around the
      centre: at most half the zoom size away on either axis. */
  lemma PreviewStaysInSquare(centre: Point, t: Point)
    requires 0 <= t.x < ZoomSize * ZoomLevel && 0 <= t.y < ZoomSize * ZoomLevel
    ensures var p := SourceAt(ZoomCrop(centre), t);
      centre.x - ZoomSize / 2 <= p.x < centre.x + ZoomSize / 2
      && centre.y - ZoomSize / 2 <= p.y < centre.y + ZoomSize / 2
  {
  }

  /** Every point of the source square appears in the preview, magnified: the
      destination pixel ZoomLevel times further from the corner shows it. */
  lemma PreviewShowsSquare(centre: Point, p: Point)
    requires centre.x - ZoomSize / 2 <= p.x < centre.x + ZoomSize / 2
    requires centre.y - ZoomSize / 2 <= p.y < centre.y + ZoomSize / 2
    ensures var t := Point(ZoomLevel * (p.x - centre.x + ZoomSize / 2),
                           ZoomLevel * (p.y - centre.y + ZoomSize / 2));
      0 <= t.x < ZoomSize * ZoomLevel && 0 <= t.y < ZoomSize * ZoomLevel
      && SourceAt(ZoomCrop(centre), t) == p
  {
  }
}

=== FILE: surface.dfy ===
/** Coordinates on the page and the translation from viewport (client)
    coordinates to coordinates local to the image surface. */
module Surface {

  datatype Point = Point(x: int, y: int)

  /** Where the canvas sits when a handler runs: the top-left corner of its
      bounding box in viewport coordinates, and the window's scroll offset. */
  datatype Viewport = Viewport(left: int, top: int, scrollX: int, scrollY: int)

  /** Surface-local position of a pointer event: subtract the bounding box's
      corner and add the scroll offset. The hover path and the click path both
      use this one translation. */
  function ToSurface(client: Point, v: Viewport): (p: Point)
    ensures p.x - client.x == v.scrollX - v.left
    ensures p.y - client.y == v.scrollY - v.top
  {
    Point(client.x - v.left + v.scrollX, client.y - v.top + v.scrollY)
  }

  /** The inverse translation: the viewport position that lands on a given
      surface-local point. */
  function ToClient(p: Point, v: Viewport): Point
  {
    Point(p.x + v.left - v.scrollX, p.y + v.top - v.scrollY)
  }

  /** The translation is a bijection for a fixed viewport. */
  lemma ToSurfaceRoundTrip(client: Point, p: Point, v: Viewport)
    ensures ToClient(ToSurface(client, v), v) == client
    ensures ToSurface(ToClient(p, v), v) == p
    ensures ToSurface(client, v) == p <==> client == ToClient(p, v)
  {
  }

  /** Translating two pointer positions under one viewport keeps their
      difference, so distances measured on the surface equal distances
      measured in the viewport. */
  lemma ToSurfaceKeepsOffsets(a: Point, b: Point, v: Viewport)
    ensures ToSurface(a, v).x - ToSurface(b, v).x == a.x - b.x
    ensures ToSurface(a, v).y - ToSurface(b, v).y == a.y - b.y
  {
  }
}

=== FILE: wrappers.dfy ===
/** The optional-value datatype used wherever the browser script holds a
    nullable reference or a field that has not been written yet. */
module Wrappers {

  datatype Option<+T> = None | Some(value: T)
}
